=== FILE: README.md ===
# Window runtime, font fallback and docking suggestor — a Dafny model

This project models the sequential logic of the editor's presentation shell:
the `WindowSetup` window runtime (`Frontend/WindowSetup.h`) and the
`DockingSuggestor` overlay (`Frontend/imgui_docking_internal.h`). GLFW, Dear
ImGui and OpenGL are opaque here. Their outcomes are inputs: `glfwInit`
succeeding, the created window, the two toolkit backends, the native close
flag, the platform events waiting at each poll, file existence, font
loading, the frame clock, the draw data, mouse state and the moving window. Every state-changing entry point of the runtime is a
pure function from the process-wide state record to the next state, and it
also returns the trace of foreign calls it makes. "No-op" therefore means the
same state and an empty trace. `Render` changes no state and returns only its
trace, `ShouldClose` returns only the flag, and the two GLFW callbacks return
only the next state, since they make no foreign call.

Files:

- `options.dfy`: `Option`, standing for handles that may be null.
- `metrics.dfy` (`PerfMetrics`): `PerformanceMetrics`, `Reset`, the
  frame-time and frame-rate formulas, and the draw-statistics loop with its
  functional totals.
- `fonts.dfy` (`Fonts`): `find_last_of`/`substr` basename arithmetic, the
  ordered candidate list, the fallback search and the `LoadFonts` role policy.
- `font_properties.dfy` (`FontProperties`): search order and success-flag
  lemmas.
- `runtime.dfy` (`Runtime`): the state record, `Initialize`, `BeginFrame`,
  `EndFrame`, `Render`, `Shutdown`, the close flags, the two GLFW callbacks,
  `SetWindowSize` and `SetWindowTitle`.
- `runtime_properties.dfy` (`RuntimeProperties`): multi-call properties.
  These cover repeated `Initialize`, the window leak on backend failure,
  `Shutdown` twice, running frames and a whole session.
- `docking.dfy` (`Docking`): the suggestor record, its invariant and its
  three operations.

The model follows the code exactly in these places, where its behaviour is easy to misread:

- A repeated `Initialize` returns the stored window handle (not null) and
  makes no foreign call.
- When a toolkit backend fails to initialize, the code returns null without
  rolling back. The window and the toolkit context stay alive, the window
  stays stored in the state, and the runtime stays uninitialized, so a later
  `Shutdown` is a no-op and never frees them. `RuntimeProperties.BackendFailureLeaks`
  states this.
- The frame rate is `1000000.0 / elapsed` with no guard. At zero elapsed
  microseconds the model yields `PositiveInfinity`, the value an IEEE double
  takes. The elapsed count is signed, because the high-resolution clock need
  not be steady. A backwards step gives a negative frame time and rate.
- `BeginFrame`'s `glfwPollEvents` runs the close and resize callbacks. A
  polled close request is what ends the drivers' `while (!ShouldClose())`
  loop, and a polled resize with positive dimensions replaces the stored size.
- `EndFrame` reads `GetDrawData` before the frame's `Render` has produced
  any draw data. Its statistics therefore describe an earlier frame at best.
  The model takes whatever `GetDrawData` reports at that point as an input.
- `SetShouldClose` always writes the runtime's flag. It writes GLFW's flag
  only when a window exists.
- The font search stops at the first candidate that exists and whose load
  does not throw. If that load returns null, the result is null and the later
  rewrites are not tried.
- `Initialize` stores the configuration before `glfwInit`, so a failed call
  still replaces it. `Initialize` never touches the metrics.
- `Shutdown` leaves the configuration and the four font slots as they were.
  `LoadFonts` leaves a skipped role's slot holding its previous handle.

## Model

| member | source | states |
|---|---|---|
| PerfMetrics.Reset | Frontend/WindowSetup.h:263-272 | every metrics field is zero afterwards, whatever it held before |
| PerfMetrics.CountDrawData | Frontend/WindowSetup.h:814-821 | the loop's counters, restarted at zero, end at the list count and the sums of vertex and index buffer sizes |
| PerfMetrics.TotalsAppend | Frontend/WindowSetup.h:817-821 | the vertex and index totals add up over concatenated draw lists, which makes the loop's one-list-at-a-time sum correct |
| PerfMetrics.FrameTimeMs | Frontend/WindowSetup.h:808 | the frame time in milliseconds times 1000 is the elapsed microseconds, negative exactly when the clock stepped back |
| PerfMetrics.FpsOf | Frontend/WindowSetup.h:809 | the rate is infinite exactly when no time elapsed; otherwise it times the elapsed microseconds gives one million, so it is positive for a forward clock and negative when the clock stepped back |
| PerfMetrics.EndFrameUpdate | Frontend/WindowSetup.h:803-822 | timing comes from the clock; draw counts equal the list count and buffer sums of the draw data `GetDrawData` reports when EndFrame runs, when it reports any, and are unchanged without it; the other fields are kept |
| PerfMetrics.EndFrameOverwrites | Frontend/WindowSetup.h:814-816 | with draw data present, the counts after the update do not depend on the counts before it, so they never accumulate |
| Fonts.LastIndexOf | Frontend/WindowSetup.h:368 | the result is absent exactly when the character does not occur; otherwise it is an index holding it with no later occurrence |
| Fonts.Basename | Frontend/WindowSetup.h:368 | the result is a suffix of the path with no '/', preceded by the last '/' of the path; a path without '/' is returned whole, because npos + 1 wraps to 0 |
| Fonts.TryPaths | Frontend/WindowSetup.h:355-383 | the first candidate that exists and does not throw decides the result (its font, or null); if none qualifies the result is null; a returned font was loaded from such a first candidate |
| Fonts.ResolveFont | Frontend/WindowSetup.h:352-384 | the original path is tried first; a returned font was loaded from one of the five candidates that exists; if no candidate exists the result is null |
| Fonts.LoadFonts | Frontend/WindowSetup.h:386-432 | the main slot is always filled (the default stands in when unresolved); success is false exactly when the main font is unresolved or an attempted icon load failed; bold, mono and icon are resolved only when attempted, and otherwise keep their slot |
| FontProperties.ResolveUsesFirstAccepted | Frontend/WindowSetup.h:364-380 | the k-th rewrite is used exactly when all earlier candidates were passed over, so the order is original, "./", "../", "../../", basename |
| FontProperties.CandidatesDistinct | Frontend/WindowSetup.h:364-369 | a path with a directory part yields five pairwise different candidate path strings; without one, the last candidate is the original path again |
| FontProperties.BareNameRetryFails | Frontend/WindowSetup.h:364-383 | for a bare file name none of whose first four forms is accepted, the basename retry is not accepted either and the result is null |
| FontProperties.NullLoadStopsSearch | Frontend/WindowSetup.h:355-357 | an existing original path whose load returns null yields null without trying the rewrites |
| FontProperties.ThrowMovesOn | Frontend/WindowSetup.h:356-360 | a throwing load of the original path moves on to the "./" rewrite |
| FontProperties.FallsBackToBasename | Frontend/WindowSetup.h:368-380 | when none of the first four candidates qualifies, the bare file name is used |
| FontProperties.SuccessIgnoresOptionalRoles | Frontend/WindowSetup.h:393-402 | the success flag is the same whether or not bold and mono are attempted |
| FontProperties.MissingFontsDegrade | Frontend/WindowSetup.h:386-402 | with no font file anywhere the main slot holds the default font and success is false; attempted bold and mono slots are null |
| Runtime.RequestFor | Frontend/WindowSetup.h:671-695 | a windowed window uses the configured size; both fullscreen modes use the monitor's video mode; only fullscreen sits on the monitor; only borderless is undecorated |
| Runtime.CreationCalls | Frontend/WindowSetup.h:650-695 | after a successful glfwInit, the pre-init hook runs exactly when set, then the window is requested; nothing is torn down |
| Runtime.ContextCalls | Frontend/WindowSetup.h:703-740 | the new window's context is made current first, the toolkit context is created, the platform backend is initialized last, and nothing is torn down |
| Runtime.Initialize | Frontend/WindowSetup.h:630-774 | a repeated call changes nothing; the config is stored; the runtime becomes initialized, with both close flags clear, exactly when every backend step succeeds; glfwInit failure keeps the window slot; creation failure clears it and terminates GLFW; backend failure keeps the new window; fonts load only once a window exists |
| Runtime.BeginFrame | Frontend/WindowSetup.h:776-793 | uninitialized: no-op; otherwise a polled close request raises both close flags, so ShouldClose holds afterwards exactly when it held before or a close request was polled; the last accepted resize sets the size; nothing else changes; events are polled first and the frame-start hook runs exactly when set |
| Runtime.EndFrame | Frontend/WindowSetup.h:795-823 | uninitialized: no-op; otherwise only the metrics change: the frame time matches the clock and the draw counts are overwritten from the draw data `GetDrawData` reports when EndFrame runs, or kept without it |
| Runtime.Render | Frontend/WindowSetup.h:825-853 | no call exactly when uninitialized; otherwise the frame is finalized first and the primary window presented last; platform windows are rendered exactly when multi-viewport is on, followed by restoring the context current before them |
| Runtime.Shutdown | Frontend/WindowSetup.h:855-879 | uninitialized: no-op; otherwise the window is cleared, both flags are false, the metrics are zeroed, config and fonts are kept; the shutdown hook runs first when set, both toolkit backends are shut down, the toolkit context and the window are destroyed, and GLFW is terminated last |
| Runtime.ShouldClose | Frontend/WindowSetup.h:887 | the result is false exactly when the runtime flag is clear and there is no window or GLFW's flag is clear |
| Runtime.SetShouldClose | Frontend/WindowSetup.h:888-893 | the runtime flag always takes the value; GLFW's flag does only when a window exists; ShouldClose then reports the value; nothing else changes |
| Runtime.OnWindowClose | Frontend/WindowSetup.h:324-327 | the runtime close flag becomes true, so ShouldClose holds; nothing else changes |
| Runtime.NativeCloseRequest | Frontend/WindowSetup.h:324-327 | a platform close request raises both flags and ShouldClose holds |
| Runtime.Dispatch | Frontend/WindowSetup.h:324-337 | running the callbacks for a sequence of events raises both close flags exactly when a close request is among them, sets the size from the last resize with positive dimensions, and changes nothing else |
| Runtime.OnFramebufferResize | Frontend/WindowSetup.h:330-337 | the stored width and height take the new size only when both are positive; otherwise the state is unchanged; nothing else changes |
| Runtime.SetWindowSize | Frontend/WindowSetup.h:910-916 | with a window, the stored size takes the arguments (no positivity check) and GLFW is told; without one, a no-op; nothing else changes |
| Runtime.SetWindowTitle | Frontend/WindowSetup.h:903-908 | with a window, the stored title takes the argument and GLFW is told; without one, a no-op; nothing else changes |
| RuntimeProperties.InitializeTwice | Frontend/WindowSetup.h:631-634 | after a successful Initialize, a second one returns the same handle, keeps the state and makes no call |
| RuntimeProperties.FreshWindowDoesNotClose | Frontend/WindowSetup.h:754-755 | ShouldClose is false right after a successful Initialize |
| RuntimeProperties.BackendFailureLeaks | Frontend/WindowSetup.h:739-748 | a backend failure returns null and leaves the runtime uninitialized holding the new window, so a later Shutdown does nothing |
| RuntimeProperties.BackendFailureTrace | Frontend/WindowSetup.h:677-748 | the calls of an Initialize that fails at a toolkit backend create the window and the toolkit context and release neither, nor terminate GLFW |
| RuntimeProperties.InitializedSessionReleases | Frontend/WindowSetup.h:855-870 | after a successful Initialize, Shutdown destroys the returned window and the toolkit context, terminates GLFW and clears the window slot, unlike the leaking backend-failure path |
| RuntimeProperties.ShutdownTwice | Frontend/WindowSetup.h:855-877 | a second Shutdown in a row changes nothing and makes no call; the first destroys the window |
| RuntimeProperties.UninitializedIsInert | Frontend/WindowSetup.h:776-856 | before Initialize, BeginFrame, EndFrame, Render and Shutdown make no call and change nothing |
| RuntimeProperties.RunFrame | Frontend/WindowSetup.h:1019-1029 | one main-loop iteration (BeginFrame, EndFrame, Render) changes the close flags and size as the polled events dictate and the metrics as EndFrame computes them, nothing else; the loop condition is true afterwards exactly when it was before or a close request arrived |
| RuntimeProperties.RunFramesInert | Frontend/WindowSetup.h:776-826 | any number of frames on an uninitialized runtime changes nothing and makes no call |
| RuntimeProperties.LastResizeAppend | Frontend/WindowSetup.h:330-337 | over two runs of events the last accepted resize is the second run's, unless it has none |
| RuntimeProperties.EventsAppliedCompose | Frontend/WindowSetup.h:324-337 | the events of two polls, one after the other, have the effect of their concatenation |
| RuntimeProperties.RunFramesKeepsSession | Frontend/WindowSetup.h:776-822 | running frames changes only the metrics and, as all polled events dictate, the close flags and the size; the loop condition ends true exactly when it started true or a close request was polled; the draw counts are those of the last frame that had draw data, never a total over frames |
| RuntimeProperties.SessionScenario | Frontend/WindowSetup.h:1010-1029 | initializing an 800x600 docking window from process start, running three frames and shutting down ends uninitialized, windowless, with zeroed metrics and the config as the last accepted resize of the frames left it |
| RuntimeProperties.TransitionsKeepValid | Frontend/WindowSetup.h:753-755 | every entry point keeps "initialized implies a window" |
| Docking.FreshSatisfiesInv | Frontend/imgui_docking_internal.h:11-14 | the initial suggestor is inactive and satisfies the invariant |
| Docking.BeginFrame | Frontend/imgui_docking_internal.h:16-23 | dockspace id and threshold are always recorded; a released button ends an active drag and clears the name; otherwise activity and name are kept; the invariant is preserved |
| Docking.WatchWindow | Frontend/imgui_docking_internal.h:25-36 | a moving watched window activates an inactive suggestor with its name; the tracked window no longer moving deactivates it and clears the name; every other case changes nothing, so a single call never hands an active drag to another window; the invariant is preserved |
| Docking.PackColor | Frontend/imgui_docking_internal.h:48 | the four channels can be read back from the packed colour: red in the low byte, alpha in the high byte |
| Docking.RenderAndHandle | Frontend/imgui_docking_internal.h:38-52 | an overlay is drawn exactly when active, named and a viewport exists; it spans the work area in the overlay colour; the suggestor is not part of the result, so it is never changed |
| Docking.WatchAllPreserves | Frontend/imgui_docking_internal.h:25-36 | watching any sequence of windows preserves the invariant |
| Docking.WatchAllActivates | Frontend/imgui_docking_internal.h:29-31 | when the moving window is among the watched ones, an inactive suggestor ends the frame active |
| Docking.WatchAllStaysActive | Frontend/imgui_docking_internal.h:29-35 | while the tracked window keeps moving, watching any further windows leaves the suggestor exactly as it was |

## Left out

- GLFW, Dear ImGui and OpenGL calls are opaque entries of the `Call` trace. This covers context creation, `NewFrame`, draw-data submission, platform-window update and swapping. Their behaviour is not modelled; their outcomes are inputs.
- Window hints (GL version, profile, forward compatibility, double buffer, samples) are not modelled, and neither are the navigation flags, the GLSL version string or the viewport style tweak. They only feed foreign calls. Only the decoration hint of borderless mode is kept, in the window request.
- The debug flags and the GLFW error callback are left out. That callback only logs, and asserts when configured.
- A null video mode from GLFW in the fullscreen modes is left out. The code dereferences it.
- Timing: the frame clock becomes the elapsed-microseconds input, in place of the stored frame-start time point. Reals stand in for doubles, so rounding is not modelled. `ScopedTimer` and the initialization timer are left out.
- `ApplyTheme` and its palettes are left out; they are colour data. `Initialize` records only the `ApplyDefaultTheme` call.
- The compatibility macros and `ImGuiCompat` forwarders are compile-time glue and are left out.
- `BeginDockspace`/`EndDockspace` are left out. They are pure toolkit call sequences. `EndDockspace` calls `ImGui::End` even when docking is disabled.
- `CenterWindow`, `MaximizeWindow`, `RestoreWindow`, `IconifyWindow`, `GetWindowSize` and `GetFramebufferSize` are left out. They only query or drive GLFW.
- The field getters (`GetWindow`, `IsInitialized`, `GetConfig`, `GetMetrics`, the font getters) are left out. They are the record's fields.
- Font sizes, glyph ranges and the icon merge configuration are not separate parameters. The font loader oracle takes the role, which stands for them.
- Fonts.ResolveFont: an exception not derived from `std::exception` thrown by the first load attempt escapes `LoadFonts` in the code. The model treats every throw as caught.
- Fonts.ResolveFont: the file-existence and load oracles see path strings, not files. A relative `p` and `./p` name the same file, so the "./" rewrite retries the original file, but the model lets the oracles answer the two strings differently.
- Fonts.ResolveFont: `std::filesystem::exists` (lines 355 and 372) sits outside both `try` blocks, so a `filesystem_error` it raises (a permission error, say) escapes `LoadFonts` and `Initialize`. The model's file-existence oracle always answers.
- Runtime.Initialize: the pre-init and post-init hooks are opaque calls that leave the state alone. A hook that calls `SetShouldClose`, `SetWindowSize` or `SetWindowTitle` changes the close flag or the configuration in the code, and the model does not follow it.
- Runtime.BeginFrame: the frame-start hook is likewise an opaque call; state changes made from inside it are not modelled.
- Runtime.EndFrame: the frame-end hook is likewise an opaque call; state changes made from inside it are not modelled.
- Runtime.Shutdown: the shutdown hook is likewise an opaque call; state changes made from inside it are not modelled.
- Only close requests and framebuffer resizes are modelled as polled events, because only their callbacks touch the runtime's state. Input, focus and other events go to the toolkit's backend.
- Fonts.LoadFonts: the atlas `Clear` is not modelled, so a skipped slot's stale handle is not marked as dangling.
- PerfMetrics.EndFrameUpdate: the `size_t` draw counters are unbounded naturals, so wrap-around is not modelled.
- `Docking.WatchWindow` compares names as strings. C strings with embedded NULs are not considered.
- Logging to standard output and standard error is left out.
- Concurrency is left out; the runtime is single-threaded by design.
- The UI panel headers, the example drivers and the icon glyph table are left out. They hold declarative widget calls and constants.

=== FILE: docking.dfy ===
/** `DockingSuggestor`: remembers which window the mouse is dragging and
    draws a drop hint over the work area while it does. Mouse state and the
    toolkit's moving window are per-frame inputs. */
module Docking {
  import opened Options

  /** `ImGuiID`, an unsigned 32-bit hash. */
  type ImGuiId = x: int | 0 <= x < 0x1_0000_0000

  const DefaultEdgeThreshold: real := 30.0

  datatype DockingSuggestor = DockingSuggestor(
    threshold: real,
    active: bool,
    draggingWindowName: string,
    dockspaceId: ImGuiId)

  /** The member initialisers. */
  const Fresh: DockingSuggestor := DockingSuggestor(DefaultEdgeThreshold, false, "", 0)

  /** No name is remembered while no drag is tracked. */
  predicate Inv(d: DockingSuggestor) {
    !d.active ==> d.draggingWindowName == ""
  }

  lemma FreshSatisfiesInv()
    ensures Inv(Fresh) && !Fresh.active
  {
  }

  /** `BeginFrame(dockspace, edgeThreshold)`; `mouseDown` is
      `ImGui::IsMouseDown(0)`. A released button ends any tracked drag. */
  function BeginFrame(d: DockingSuggestor, dockspace: ImGuiId, edgeThreshold: real, mouseDown: bool): (r: DockingSuggestor)
    ensures r.dockspaceId == dockspace && r.threshold == edgeThreshold
    ensures !mouseDown ==> !r.active
    ensures d.active && !mouseDown ==> r.draggingWindowName == ""
    ensures !(d.active && !mouseDown) ==> r.active == d.active && r.draggingWindowName == d.draggingWindowName
    ensures Inv(d) ==> Inv(r)
  {
    var framed := d.(dockspaceId := dockspace, threshold := edgeThreshold);
    if !mouseDown && d.active then framed.(active := false, draggingWindowName := "")
    else framed
  }

  /** `WatchWindow(name)`; `moving` is the name of the toolkit's moving
      window, `None` when no window moves. */
  function WatchWindow(d: DockingSuggestor, name: string, moving: Option<string>): (r: DockingSuggestor)
    // activation
    ensures moving == Some(name) && !d.active ==> r.active && r.draggingWindowName == name
    // deactivation
    ensures moving != Some(name) && d.active && d.draggingWindowName == name ==>
      !r.active && r.draggingWindowName == ""
    // every other case leaves the suggestor as it was
    ensures (moving == Some(name) && d.active) || (moving != Some(name) && !(d.active && d.draggingWindowName == name)) ==>
      r == d
    // a tracked drag is never handed over to another window
    ensures d.active && r.active ==> r.draggingWindowName == d.draggingWindowName
    ensures r.dockspaceId == d.dockspaceId && r.threshold == d.threshold
    ensures Inv(d) ==> Inv(r)
  {
    var isMoving := moving == Some(name);
    if isMoving && !d.active then d.(active := true, draggingWindowName := name)
    else if !isMoving && d.active && d.draggingWindowName == name then d.(active := false, draggingWindowName := "")
    else d
  }

  datatype Vec2 = Vec2(x: real, y: real)

  /** The main viewport's work area. */
  datatype Viewport = Viewport(workPos: Vec2, workSize: Vec2)

  /** A filled rectangle on the foreground draw list. */
  datatype Overlay = Overlay(min: Vec2, max: Vec2, color: bv32)

  /** `IM_COL32(r, g, b, a)`: red in the low byte, alpha in the high byte. */
  function PackColor(red: bv8, green: bv8, blue: bv8, alpha: bv8): (c: bv32)
    ensures (c & 0xFF) as bv8 == red
    ensures ((c >> 8) & 0xFF) as bv8 == green
    ensures ((c >> 16) & 0xFF) as bv8 == blue
    ensures (c >> 24) as bv8 == alpha
  {
    (alpha as bv32 << 24) | (blue as bv32 << 16) | (green as bv32 << 8) | red as bv32
  }

  const OverlayColor: bv32 := PackColor(0, 120, 215, 100)

  /** `RenderAndHandle()`: draws over the whole work area only while a named
      drag is tracked and a main viewport exists. It yields the drawing and
      no new suggestor, so the suggestor is left unchanged. */
  function RenderAndHandle(d: DockingSuggestor, viewport: Option<Viewport>): (r: Option<Overlay>)
    ensures r.Some? <==> d.active && d.draggingWindowName != "" && viewport.Some?
    ensures r.Some? ==>
      && r.value.min == viewport.value.workPos
      && r.value.max.x == viewport.value.workPos.x + viewport.value.workSize.x
      && r.value.max.y == viewport.value.workPos.y + viewport.value.workSize.y
      && r.value.color == OverlayColor
  {
    if !d.active || d.draggingWindowName == "" then None
    else
      match viewport
      case None => None
      case Some(vp) =>
        var workMin := vp.workPos;
        var workMax := Vec2(workMin.x + vp.workSize.x, workMin.y + vp.workSize.y);
        Some(Overlay(workMin, workMax, OverlayColor))
  }

  /** The watching part of one frame: each panel window is watched in turn,
      after the frame has begun. */
  function WatchAll(d: DockingSuggestor, names: seq<string>, moving: Option<string>): DockingSuggestor
    decreases |names|
  {
    if |names| == 0 then d else WatchAll(WatchWindow(d, names[0], moving), names[1..], moving)
  }

  /** Watching any number of windows keeps the invariant. */
  lemma {:induction false} WatchAllPreserves(d: DockingSuggestor, names: seq<string>, moving: Option<string>)
    requires Inv(d)
    ensures Inv(WatchAll(d, names, moving))
    decreases |names|
  {
    if |names| > 0 {
      WatchAllPreserves(WatchWindow(d, names[0], moving), names[1..], moving);
    }
  }

  /** If the moving window is among the watched ones and nothing was tracked,
      a drag is tracked afterwards. */
  lemma {:induction false} WatchAllActivates(d: DockingSuggestor, names: seq<string>, name: string)
    requires !d.active && name in names
    ensures WatchAll(d, names, Some(name)).active
    decreases |names|
  {
    if names[0] == name {
      assert WatchWindow(d, names[0], Some(name)).active;
      WatchAllStaysActive(WatchWindow(d, names[0], Some(name)), names[1..], name);
    } else {
      assert WatchWindow(d, names[0], Some(name)) == d;
      WatchAllActivates(d, names[1..], name);
    }
  }

  /** Once tracking the moving window, watching more windows changes nothing
      for the rest of the frame: the drag and its name are kept. */
  lemma {:induction false} WatchAllStaysActive(d: DockingSuggestor, names: seq<string>, name: string)
    requires d.active && d.draggingWindowName == name
    ensures WatchAll(d, names, Some(name)) == d
    decreases |names|
  {
    if |names| > 0 {
      assert WatchWindow(d, names[0], Some(name)) == d;
      WatchAllStaysActive(d, names[1..], name);
    }
  }
}

=== FILE: font_properties.dfy ===
/** Properties of the font fallback search and of the role policy. */
module FontProperties {
  import opened Options
  import opened Fonts

  /** The k-th candidate is used when it is the first one accepted: the
      rewrites are tried strictly in order. */
  lemma ResolveUsesFirstAccepted(env: FontEnv, role: Role, path: string, k: nat)
    requires k < 5
    requires Accepted(env, role, Candidates(path)[k])
    requires forall j :: 0 <= j < k ==> !Accepted(env, role, Candidates(path)[j])
    ensures ResolveFont(env, role, path) == AsHandle(env.load(role, Candidates(path)[k]))
  {

  }

  /** With a directory part, the five candidates are five different path
      strings (a relative path and its "./" form still name the same file);
      without one, the last candidate is the original path again. */
  lemma CandidatesDistinct(path: string)
    ensures '/' in path && |path| < NPOS ==>
      forall i, j :: 0 <= i < j < 5 ==> Candidates(path)[i] != Candidates(path)[j]
    ensures '/' !in path ==> Candidates(path)[4] == path
  {
  }

  /** A bare file name gains nothing from the last rewrite: when none of the
      first four candidates is accepted, the retry of the original path is
      not either, and the result is null. */
  lemma BareNameRetryFails(env: FontEnv, role: Role, path: string)
    requires '/' !in path
    requires !Accepted(env, role, path) && !Accepted(env, role, "./" + path)
    requires !Accepted(env, role, "../" + path) && !Accepted(env, role, "../../" + path)
    ensures ResolveFont(env, role, path) == None
  {
    BareCandidatesRejected(env, role, path);
    NoneAcceptedIsNull(env, role, path);
  }

  /** For a bare name, rejecting the first four candidates rejects all five. */
  lemma BareCandidatesRejected(env: FontEnv, role: Role, path: string)
    requires '/' !in path
    requires !Accepted(env, role, path) && !Accepted(env, role, "./" + path)
    requires !Accepted(env, role, "../" + path) && !Accepted(env, role, "../../" + path)
    ensures NoneAccepted(env, role, Candidates(path))
  {
  }

  /** No accepted candidate means a null result. */
  lemma NoneAcceptedIsNull(env: FontEnv, role: Role, path: string)
    requires NoneAccepted(env, role, Candidates(path))
    ensures ResolveFont(env, role, path) == None
  {
  }

  /** An existing file whose load hands back null ends the search with null;
      the later rewrites are not tried. */
  lemma NullLoadStopsSearch(env: FontEnv, role: Role, path: string)
    requires env.fileExists(path) && env.load(role, path).ReturnedNull?
    ensures ResolveFont(env, role, path) == None
  {
  }

  /** A throwing load moves on to the next rewrite. */
  lemma ThrowMovesOn(env: FontEnv, role: Role, path: string)
    requires env.fileExists(path) && env.load(role, path).Threw?
    requires Accepted(env, role, "./" + path)
    ensures ResolveFont(env, role, path) == AsHandle(env.load(role, "./" + path))
  {
    ResolveUsesFirstAccepted(env, role, path, 1);
  }

  /** A path with a directory part falls back to the bare file name, found in
      the working directory, when none of the prefixed forms is accepted. */
  lemma FallsBackToBasename(env: FontEnv, role: Role, path: string)
    requires !Accepted(env, role, path) && !Accepted(env, role, "./" + path)
    requires !Accepted(env, role, "../" + path) && !Accepted(env, role, "../../" + path)
    requires Accepted(env, role, Basename(path))
    ensures ResolveFont(env, role, path) == AsHandle(env.load(role, Basename(path)))
  {
    ResolveUsesFirstAccepted(env, role, path, 4);
  }

  /** Bold and monospace outcomes never affect the success flag. */
  lemma SuccessIgnoresOptionalRoles(cfg: FontConfig, slots: FontSlots, env: FontEnv)
    ensures LoadFonts(cfg, slots, env).success == LoadFonts(cfg.(boldPath := "", monoPath := ""), slots, env).success
  {
  }

  /** A required font that cannot be found anywhere: the default font stands
      in, success is false, and an optional role that is equally missing
      ends up null. */
  lemma MissingFontsDegrade(cfg: FontConfig, slots: FontSlots, env: FontEnv)
    requires forall p :: !env.fileExists(p)
    ensures LoadFonts(cfg, slots, env).slots.main == Some(env.defaultFont)
    ensures !LoadFonts(cfg, slots, env).success
    ensures cfg.boldPath != "" ==> LoadFonts(cfg, slots, env).slots.bold.None?
    ensures cfg.monoPath != "" ==> LoadFonts(cfg, slots, env).slots.mono.None?
  {

  }
}

=== FILE: fonts.dfy ===
/** Font resolution for the window layer (`LoadFonts`): a fixed, ordered list
    of path rewrites per font, and a per-role policy on top of it. The file
    system and the font atlas are oracles passed in as functions. */
module Fonts {
  import opened Options

  /** Identity of an `ImFont*` the atlas handed out (never null). */
  type FontId = nat

  /** The four font slots; the role also stands for the size and glyph
      ranges each role passes to the atlas. */
  datatype Role = Regular | Bold | Mono | Icon

  /** What `AddFontFromFileTTF` does with an existing file: hands back a font,
      hands back null, or throws. */
  datatype LoadOutcome = Loaded(font: FontId) | ReturnedNull | Threw

  /** The environment of one `LoadFonts` call: `std::filesystem::exists`, the
      atlas loader, and the handle `AddFontDefault` returns. */
  datatype FontEnv = FontEnv(
    fileExists: string -> bool,
    load: (Role, string) -> LoadOutcome,
    defaultFont: FontId)

  datatype FontConfig = FontConfig(
    regularPath: string,
    boldPath: string,
    monoPath: string,
    loadFontAwesome: bool,
    fontAwesomePath: string)

  const DefaultFontConfig: FontConfig := FontConfig(
    "Assets/Fonts/Roboto-Regular.ttf",
    "Assets/Fonts/Roboto-Bold.ttf",
    "Assets/Fonts/RobotoMono-Regular.ttf",
    true,
    "Assets/Fonts/fa-solid-900.ttf")

  /** The process-wide font cache: main, bold, monospace and icon fonts. */
  datatype FontSlots = FontSlots(
    main: Option<FontId>,
    bold: Option<FontId>,
    mono: Option<FontId>,
    icon: Option<FontId>)

  const NoFonts: FontSlots := FontSlots(None, None, None, None)

  datatype FontLoadResult = FontLoadResult(slots: FontSlots, success: bool)

  // ---------------------------------------------------------------------------
  // Basename, with std::string::npos arithmetic written out
  // ---------------------------------------------------------------------------

  /** `std::string::npos`, the largest `size_t`. */
  const NPOS: nat := 0xFFFF_FFFF_FFFF_FFFF
  const SIZE_MODULUS: nat := 0x1_0000_0000_0000_0000

  /** The last index holding `c`, if any. */
  function LastIndexOf(p: string, c: char): (r: Option<nat>)
    ensures r.None? <==> c !in p
    ensures r.Some? ==> r.value < |p| && p[r.value] == c && forall k :: r.value < k < |p| ==> p[k] != c
    decreases |p|
  {
    if |p| == 0 then None
    else if p[|p| - 1] == c then Some(|p| - 1)
    else LastIndexOf(p[..|p| - 1], c)
  }

  /** `find_last_of(c)` as a `size_t`: npos when `c` does not occur. */
  function FindLastOf(p: string, c: char): nat {
    match LastIndexOf(p, c)
    case None => NPOS
    case Some(i) => i
  }

  /** `path.substr(path.find_last_of('/') + 1)`: the `size_t` sum wraps, so a
      path with no '/' starts at offset 0 and is kept whole. */
  function Basename(p: string): (r: string)
    ensures |r| <= |p| && r == p[|p| - |r|..]
    ensures |p| < NPOS ==> '/' !in r
    ensures |p| < NPOS && '/' in p ==> p[|p| - |r| - 1] == '/'
    ensures '/' !in p ==> r == p
  {
    var start := (FindLastOf(p, '/') + 1) % SIZE_MODULUS;
    p[start..]
  }

  // ---------------------------------------------------------------------------
  // The fallback lambda
  // ---------------------------------------------------------------------------

  /** Paths tried for `p`, in order: the path itself, then the alternatives. */
  function Candidates(p: string): seq<string> {
    [p, "./" + p, "../" + p, "../../" + p, Basename(p)]
  }

  /** A candidate ends the search: it exists and loading it did not throw. */
  predicate Accepted(env: FontEnv, role: Role, path: string) {
    env.fileExists(path) && !env.load(role, path).Threw?
  }

  /** `paths[i]` is the first candidate that ends the search. */
  predicate IsFirstAccepted(env: FontEnv, role: Role, paths: seq<string>, i: int) {
    && 0 <= i < |paths|
    && Accepted(env, role, paths[i])
    && forall j :: 0 <= j < i ==> !Accepted(env, role, paths[j])
  }

  predicate NoneAccepted(env: FontEnv, role: Role, paths: seq<string>) {
    forall i :: 0 <= i < |paths| ==> !Accepted(env, role, paths[i])
  }

  /** The handle the loader returns: the loaded font, or null. */
  function AsHandle(o: LoadOutcome): Option<FontId> {
    if o.Loaded? then Some(o.font) else None
  }

  /** Tries the candidates in order; the first that is accepted decides the
      result, even when its load hands back null. */
  function TryPaths(env: FontEnv, role: Role, paths: seq<string>): (r: Option<FontId>)
    ensures forall i :: IsFirstAccepted(env, role, paths, i) ==> r == AsHandle(env.load(role, paths[i]))
    ensures NoneAccepted(env, role, paths) ==> r == None
    ensures r.Some? ==> exists i :: IsFirstAccepted(env, role, paths, i) && env.load(role, paths[i]) == Loaded(r.value)
    decreases |paths|
  {
    if |paths| == 0 then None
    else if Accepted(env, role, paths[0]) then
      assert IsFirstAccepted(env, role, paths, 0);
      AsHandle(env.load(role, paths[0]))
    else
      var rest := TryPaths(env, role, paths[1..]);
      assert forall i :: IsFirstAccepted(env, role, paths, i) ==> i > 0 && IsFirstAccepted(env, role, paths[1..], i - 1);
      assert forall i :: IsFirstAccepted(env, role, paths[1..], i) ==> IsFirstAccepted(env, role, paths, i + 1);
      rest
  }

  /** `load_font_with_fallback(path)`. */
  function ResolveFont(env: FontEnv, role: Role, path: string): (r: Option<FontId>)
    ensures Accepted(env, role, path) ==> r == AsHandle(env.load(role, path))
    ensures r.Some? ==> exists i :: 0 <= i < 5 && env.fileExists(Candidates(path)[i])
                                      && env.load(role, Candidates(path)[i]) == Loaded(r.value)
    ensures (forall i :: 0 <= i < 5 ==> !env.fileExists(Candidates(path)[i])) ==> r == None
  {
    var paths := Candidates(path);
    assert Accepted(env, role, path) ==> IsFirstAccepted(env, role, paths, 0);
    TryPaths(env, role, paths)
  }

  // ---------------------------------------------------------------------------
  // The role policy
  // ---------------------------------------------------------------------------

  /** The icon font is attempted only when requested and given a path. */
  predicate IconAttempted(cfg: FontConfig) {
    cfg.loadFontAwesome && cfg.fontAwesomePath != ""
  }

  /** `LoadFonts`: the main font is required (default substituted), bold and
      mono are best effort, the icon font counts against the success flag. A
      skipped role keeps whatever its slot held. */
  function LoadFonts(cfg: FontConfig, slots: FontSlots, env: FontEnv): (r: FontLoadResult)
    ensures r.slots.main.Some?
    ensures ResolveFont(env, Regular, cfg.regularPath).Some? ==>
      r.slots.main == ResolveFont(env, Regular, cfg.regularPath)
    ensures ResolveFont(env, Regular, cfg.regularPath).None? ==> r.slots.main == Some(env.defaultFont)
    ensures !r.success <==>
      ResolveFont(env, Regular, cfg.regularPath).None? || (IconAttempted(cfg) && r.slots.icon.None?)
    ensures cfg.boldPath == "" ==> r.slots.bold == slots.bold
    ensures cfg.boldPath != "" ==> r.slots.bold == ResolveFont(env, Bold, cfg.boldPath)
    ensures cfg.monoPath == "" ==> r.slots.mono == slots.mono
    ensures cfg.monoPath != "" ==> r.slots.mono == ResolveFont(env, Mono, cfg.monoPath)
    ensures !IconAttempted(cfg) ==> r.slots.icon == slots.icon
    ensures IconAttempted(cfg) ==> r.slots.icon == ResolveFont(env, Icon, cfg.fontAwesomePath)
  {
    var main := ResolveFont(env, Regular, cfg.regularPath);
    var bold := if cfg.boldPath != "" then ResolveFont(env, Bold, cfg.boldPath) else slots.bold;
    var mono := if cfg.monoPath != "" then ResolveFont(env, Mono, cfg.monoPath) else slots.mono;
    var icon := if IconAttempted(cfg) then ResolveFont(env, Icon, cfg.fontAwesomePath) else slots.icon;
    var mainSlot := if main.Some? then main else Some(env.defaultFont);
    var success := main.Some? && (IconAttempted(cfg) ==> icon.Some?);
    FontLoadResult(FontSlots(mainSlot, bold, mono, icon), success)
  }
}

=== FILE: metrics.dfy ===
/** Per-frame performance statistics (`PerformanceMetrics` in the window
    layer): zeroed at shutdown, overwritten wholesale at the end of every frame. */
module PerfMetrics {
  import opened Options

  /** A frame rate as an IEEE double can hold it: the window layer divides by
      the elapsed microseconds without a guard, so a zero-length frame yields
      positive infinity rather than a finite value. */
  datatype Rate = Finite(hz: real) | PositiveInfinity

  datatype PerformanceMetrics = PerformanceMetrics(
    frameTimeMs: real,
    fps: Rate,
    inputLatencyMs: real,
    renderTimeMs: real,
    updateTimeMs: real,
    drawCalls: nat,
    vertices: nat,
    indices: nat)

  /** The vertex and index buffers of one draw list produced by the toolkit. */
  datatype DrawList = DrawList(vtxSize: nat, idxSize: nat)

  /** Every field holds its initial value. */
  predicate IsZeroed(m: PerformanceMetrics) {
    && m.frameTimeMs == 0.0 && m.fps == Finite(0.0)
    && m.inputLatencyMs == 0.0 && m.renderTimeMs == 0.0 && m.updateTimeMs == 0.0
    && m.drawCalls == 0 && m.vertices == 0 && m.indices == 0
  }

  const Zero: PerformanceMetrics :=
    PerformanceMetrics(0.0, Finite(0.0), 0.0, 0.0, 0.0, 0, 0, 0)

  /** `PerformanceMetrics::Reset`: forgets everything the record held. */
  function Reset(m: PerformanceMetrics): (r: PerformanceMetrics)
    ensures IsZeroed(r)
  {
    Zero
  }

  function TotalVertices(lists: seq<DrawList>): nat {
    if |lists| == 0 then 0 else lists[0].vtxSize + TotalVertices(lists[1..])
  }

  function TotalIndices(lists: seq<DrawList>): nat {
    if |lists| == 0 then 0 else lists[0].idxSize + TotalIndices(lists[1..])
  }

  /** The totals split over a concatenation of draw lists. */
  lemma {:induction false} TotalsAppend(a: seq<DrawList>, b: seq<DrawList>)
    ensures TotalVertices(a + b) == TotalVertices(a) + TotalVertices(b)
    ensures TotalIndices(a + b) == TotalIndices(a) + TotalIndices(b)
    decreases |a|
  {
    if |a| == 0 {
      assert a + b == b;
    } else {
      assert (a + b)[1..] == a[1..] + b;
      TotalsAppend(a[1..], b);
    }
  }

  /** The statistics loop at the end of `EndFrame`: both counters restart at
      zero and add one draw list at a time. */
  method CountDrawData(lists: seq<DrawList>) returns (drawCalls: nat, vertices: nat, indices: nat)
    ensures drawCalls == |lists|
    ensures vertices == TotalVertices(lists)
    ensures indices == TotalIndices(lists)
  {
    drawCalls := |lists|;
    vertices := 0;
    indices := 0;
    var i := 0;
    while i < |lists|
      invariant 0 <= i <= |lists|
      invariant vertices == TotalVertices(lists[..i])
      invariant indices == TotalIndices(lists[..i])
    {
      TotalsAppend(lists[..i], [lists[i]]);
      assert lists[..i + 1] == lists[..i] + [lists[i]];
      vertices := vertices + lists[i].vtxSize;
      indices := indices + lists[i].idxSize;
      i := i + 1;
    }
    assert lists[..i] == lists;
  }

  /** Frame time in milliseconds from the elapsed microseconds. The count is
      signed: the high-resolution clock need not be steady, so a frame can
      appear to end before it began. */
  function FrameTimeMs(elapsedUs: int): (r: real)
    ensures r * 1000.0 == elapsedUs as real
    ensures r < 0.0 <==> elapsedUs < 0
  {
    elapsedUs as real / 1000.0
  }

  /** `1000000.0 / elapsed` in double precision, with no guard for zero. A
      backwards clock step gives a negative rate. */
  function FpsOf(elapsedUs: int): (r: Rate)
    ensures r.PositiveInfinity? <==> elapsedUs == 0
    ensures r.Finite? ==> r.hz * elapsedUs as real == 1000000.0
    ensures r.Finite? ==> (r.hz > 0.0 <==> elapsedUs > 0) && (r.hz < 0.0 <==> elapsedUs < 0)
  {
    if elapsedUs == 0 then PositiveInfinity else Finite(1000000.0 / elapsedUs as real)
  }

  /** The metric updates made by `EndFrame`: timing from the clock, and the
      draw statistics overwritten from the draw data the toolkit reports at
      that point, when it reports any. */
  function EndFrameUpdate(m: PerformanceMetrics, elapsedUs: int, drawData: Option<seq<DrawList>>): (r: PerformanceMetrics)
    ensures r.frameTimeMs * 1000.0 == elapsedUs as real
    ensures r.fps.PositiveInfinity? <==> elapsedUs == 0
    ensures drawData.Some? ==>
      && r.drawCalls == |drawData.value|
      && r.vertices == TotalVertices(drawData.value)
      && r.indices == TotalIndices(drawData.value)
    ensures drawData.None? ==>
      r.drawCalls == m.drawCalls && r.vertices == m.vertices && r.indices == m.indices
    ensures r.inputLatencyMs == m.inputLatencyMs && r.renderTimeMs == m.renderTimeMs
    ensures r.updateTimeMs == m.updateTimeMs
  {
    var timed := m.(frameTimeMs := FrameTimeMs(elapsedUs), fps := FpsOf(elapsedUs));
    match drawData
    case None => timed
    case Some(lists) =>
      timed.(drawCalls := |lists|, vertices := TotalVertices(lists), indices := TotalIndices(lists))
  }

  /** Draw statistics never accumulate: with draw data present, the counts
      after an update do not depend on the counts before it. */
  lemma EndFrameOverwrites(m1: PerformanceMetrics, m2: PerformanceMetrics, e1: int, e2: int, lists: seq<DrawList>)
    ensures EndFrameUpdate(m1, e1, Some(lists)).drawCalls == EndFrameUpdate(m2, e2, Some(lists)).drawCalls
    ensures EndFrameUpdate(m1, e1, Some(lists)).vertices == EndFrameUpdate(m2, e2, Some(lists)).vertices
    ensures EndFrameUpdate(m1, e1, Some(lists)).indices == EndFrameUpdate(m2, e2, Some(lists)).indices
  {
  }
}

=== FILE: options.dfy ===
/** The nullable-handle idiom of the window layer: a handle that is either
    absent (null) or present. */
module Options {

  datatype Option<+T> = None | Some(value: T)
}

=== FILE: runtime.dfy ===
/** The window runtime (`WindowSetup` and its `Internal` state): one record
    for the process-wide state and one pure function per entry point. Every
    transition also returns the trace of calls it makes into GLFW, Dear ImGui
    and OpenGL; those calls are opaque, and their outcomes come in as inputs. */
module Runtime {
  import opened Options
  import opened PerfMetrics
  import opened Fonts

  type WindowId = nat

  datatype WindowMode = Windowed | BorderlessFullscreen | Fullscreen

  datatype VSyncMode = Disabled | Enabled | Adaptive

  /** Which of the five optional lifecycle callbacks are set. */
  datatype Hooks = Hooks(preInit: bool, postInit: bool, frameStart: bool, frameEnd: bool, shutdown: bool)

  const NoHooks: Hooks := Hooks(false, false, false, false, false)

  datatype WindowConfig = WindowConfig(
    title: string,
    width: int,
    height: int,
    mode: WindowMode,
    vsync: VSyncMode,
    dockingEnabled: bool,
    viewportsEnabled: bool,
    fonts: FontConfig,
    hooks: Hooks)

  const DefaultConfig: WindowConfig :=
    WindowConfig("Geometry Engine", 1600, 900, Windowed, Enabled, true, true, DefaultFontConfig, NoHooks)

  /** The `Internal` namespace. `nativeClose` mirrors GLFW's own close flag
      of the current window, which `ShouldClose` reads and `SetShouldClose`
      writes. */
  datatype RuntimeState = RuntimeState(
    window: Option<WindowId>,
    nativeClose: bool,
    config: WindowConfig,
    metrics: PerformanceMetrics,
    initialized: bool,
    shouldClose: bool,
    fonts: FontSlots)

  /** The static initialisers, before any entry point has run. */
  const Startup: RuntimeState :=
    RuntimeState(None, false, DefaultConfig, Zero, false, false, NoFonts)

  /** An initialized runtime always holds a window. */
  predicate Valid(s: RuntimeState) {
    s.initialized ==> s.window.Some?
  }

  /** Primary monitor video mode reported by GLFW. */
  datatype VideoMode = VideoMode(width: int, height: int)

  /** Outcomes of the backend steps of `Initialize`. */
  datatype Backend = Backend(
    glfwInitOk: bool,
    video: VideoMode,
    createdWindow: Option<WindowId>,
    platformInitOk: bool,
    rendererInitOk: bool)

  predicate AllBackendsSucceed(env: Backend) {
    env.glfwInitOk && env.createdWindow.Some? && env.platformInitOk && env.rendererInitOk
  }

  /** Arguments of `glfwCreateWindow` together with the decoration hint. */
  datatype WindowRequest = WindowRequest(width: int, height: int, title: string, onPrimaryMonitor: bool, decorated: bool)

  /** Foreign calls, in the order the runtime makes them. */
  datatype Call =
    | InstallErrorCallback
    | GlfwInit
    | PreInitHook
    | CreateWindow(request: WindowRequest)
    | GlfwTerminate
    | MakeContextCurrent(context: Option<WindowId>)
    | SetSwapInterval(interval: int)
    | InstallWindowCallbacks(window: WindowId)
    | CreateUiContext
    | ConfigureUi(docking: bool, viewports: bool)
    | PlatformBackendInit(window: WindowId)
    | RendererBackendInit
    | ApplyDefaultTheme
    | PostInitHook(window: WindowId)
    | PollEvents
    | RendererNewFrame
    | PlatformNewFrame
    | UiNewFrame
    | FrameStartHook
    | FrameEndHook
    | UiRender
    | SetViewport(width: int, height: int)
    | ClearTarget(r: real, g: real, b: real, a: real)
    | SubmitDrawData
    | UpdatePlatformWindows
    | RenderPlatformWindows
    | SwapBuffers(target: Option<WindowId>)
    | ShutdownHook
    | RendererBackendShutdown
    | PlatformBackendShutdown
    | DestroyUiContext
    | DestroyWindow(target: Option<WindowId>)
    | SetNativeClose(window: WindowId, flag: bool)
    | SetNativeTitle(window: WindowId, title: string)
    | SetNativeSize(window: WindowId, width: int, height: int)

  /** A transition: the next state and the foreign calls made on the way. */
  datatype Step = Step(next: RuntimeState, calls: seq<Call>)

  /** `Initialize` also returns the window handle (null as `None`). */
  datatype InitOutcome = InitOutcome(next: RuntimeState, handle: Option<WindowId>, calls: seq<Call>)

  /** `static_cast<int>(config.vsync)`. */
  function SwapInterval(v: VSyncMode): int {
    match v
    case Disabled => 0
    case Enabled => 1
    case Adaptive => -1
  }

  /** The window `Initialize` asks GLFW for: the configured size when
      windowed, the monitor's video mode otherwise. */
  function RequestFor(cfg: WindowConfig, video: VideoMode): (r: WindowRequest)
    ensures r.title == cfg.title
    ensures cfg.mode.Windowed? ==> r.width == cfg.width && r.height == cfg.height
    ensures !cfg.mode.Windowed? ==> r.width == video.width && r.height == video.height
    ensures r.onPrimaryMonitor <==> cfg.mode.Fullscreen?
    ensures !r.decorated <==> cfg.mode.BorderlessFullscreen?
  {
    match cfg.mode
    case Fullscreen => WindowRequest(video.width, video.height, cfg.title, true, true)
    case BorderlessFullscreen => WindowRequest(video.width, video.height, cfg.title, false, false)
    case Windowed => WindowRequest(cfg.width, cfg.height, cfg.title, false, true)
  }

  function HookCall(present: bool, c: Call): seq<Call> {
    if present then [c] else []
  }

  /** `Initialize(config)`. The configuration is stored before anything can
      fail. A failing backend after window creation returns null but leaves
      the window (and the toolkit context) in place and the runtime
      uninitialized. */
  function Initialize(s: RuntimeState, cfg: WindowConfig, env: Backend, fontEnv: FontEnv): (r: InitOutcome)
    // a repeated call hands back the stored handle and touches nothing
    ensures s.initialized ==> r.next == s && r.handle == s.window && r.calls == []
    ensures !s.initialized ==> r.next.config == cfg
    // initialized (and close flag cleared) exactly when every backend step succeeded
    ensures r.next.initialized <==> s.initialized || AllBackendsSucceed(env)
    ensures !s.initialized && AllBackendsSucceed(env) ==>
      && r.handle == env.createdWindow && r.next.window == env.createdWindow
      && !r.next.shouldClose && !r.next.nativeClose
    ensures !s.initialized && !AllBackendsSucceed(env) ==> r.handle.None?
    // the three failure exits and what each leaves in the window slot
    ensures !s.initialized && !env.glfwInitOk ==> r.next.window == s.window
    ensures !s.initialized && env.glfwInitOk && env.createdWindow.None? ==>
      r.next.window.None? && |r.calls| > 0 && r.calls[|r.calls| - 1] == GlfwTerminate
    ensures !s.initialized && env.glfwInitOk && env.createdWindow.Some? && !AllBackendsSucceed(env) ==>
      r.next.window == env.createdWindow
    // fonts are loaded only once a window (and toolkit context) exists
    ensures !s.initialized && env.glfwInitOk && env.createdWindow.Some? ==>
      r.next.fonts == LoadFonts(cfg.fonts, s.fonts, fontEnv).slots
    ensures !(env.glfwInitOk && env.createdWindow.Some?) ==> r.next.fonts == s.fonts
    ensures r.next.metrics == s.metrics
    ensures Valid(s) ==> Valid(r.next)
  {
    if s.initialized then InitOutcome(s, s.window, [])
    else
      var stored := s.(config := cfg);
      var started := [InstallErrorCallback, GlfwInit];
      if !env.glfwInitOk then InitOutcome(stored, None, started)
      else
        var requested := started + CreationCalls(cfg, env.video);
        match env.createdWindow
        case None => InitOutcome(stored.(window := None), None, requested + [GlfwTerminate])
        case Some(w) =>
          var loaded := LoadFonts(cfg.fonts, s.fonts, fontEnv);
          var withWindow := stored.(window := Some(w), nativeClose := false, fonts := loaded.slots);
          var platform := requested + ContextCalls(cfg, w);
          if !env.platformInitOk then InitOutcome(withWindow, None, platform)
          else
            var renderer := platform + [RendererBackendInit];
            if !env.rendererInitOk then InitOutcome(withWindow, None, renderer)
            else
              InitOutcome(
                withWindow.(initialized := true, shouldClose := false),
                Some(w),
                renderer + [ApplyDefaultTheme] + HookCall(cfg.hooks.postInit, PostInitHook(w)))
  }

  /** No call of the sequence releases a window, the toolkit context or GLFW. */
  predicate NoTeardown(calls: seq<Call>) {
    forall i :: 0 <= i < |calls| ==> !calls[i].DestroyWindow? && !calls[i].DestroyUiContext? && !calls[i].GlfwTerminate?
  }

  /** Calls between a successful `glfwInit` and window creation: the
      pre-init hook, then the creation request. */
  function CreationCalls(cfg: WindowConfig, video: VideoMode): (r: seq<Call>)
    ensures |r| > 0 && r[|r| - 1] == CreateWindow(RequestFor(cfg, video))
    ensures NoTeardown(r)
    ensures (PreInitHook in r) <==> cfg.hooks.preInit
  {
    HookCall(cfg.hooks.preInit, PreInitHook) + [CreateWindow(RequestFor(cfg, video))]
  }

  /** Calls from binding the new window's context to the platform backend:
      the toolkit context is created, the platform backend is initialized
      last, and nothing is torn down. */
  function ContextCalls(cfg: WindowConfig, w: WindowId): (r: seq<Call>)
    ensures |r| == 6 && r[0] == MakeContextCurrent(Some(w)) && r[3] == CreateUiContext
    ensures r[5] == PlatformBackendInit(w)
    ensures NoTeardown(r)
  {
    [MakeContextCurrent(Some(w)), SetSwapInterval(SwapInterval(cfg.vsync)),
     InstallWindowCallbacks(w), CreateUiContext,
     ConfigureUi(cfg.dockingEnabled, cfg.viewportsEnabled), PlatformBackendInit(w)]
  }

  /** `BeginFrame()`: polls events, which runs the installed close and resize
      callbacks for the `pending` events, then opens a toolkit frame. The
      frame start time it records is the clock input of `EndFrame`. */
  function BeginFrame(s: RuntimeState, pending: seq<WindowEvent>): (r: Step)
    ensures !s.initialized ==> r == Step(s, [])
    ensures s.initialized ==> EventsApplied(s, pending, r.next) && r.next.metrics == s.metrics
    ensures s.initialized ==> (ShouldClose(r.next) <==> ShouldClose(s) || Close in pending)
    ensures s.initialized ==> |r.calls| > 0 && r.calls[0] == PollEvents && UiNewFrame in r.calls
    ensures s.initialized ==> (FrameStartHook in r.calls <==> s.config.hooks.frameStart)
  {
    if !s.initialized then Step(s, [])
    else Step(Dispatch(s, pending),
              [PollEvents, RendererNewFrame, PlatformNewFrame, UiNewFrame]
              + HookCall(s.config.hooks.frameStart, FrameStartHook))
  }

  /** `EndFrame()`: runs the frame-end callback, then records the frame time,
      the frame rate and the statistics of `drawData`, which is what the
      toolkit's `GetDrawData` reports at that point. The current frame's draw
      data only exists after `Render` runs, so this is at best an earlier
      frame's. */
  function EndFrame(s: RuntimeState, elapsedUs: int, drawData: Option<seq<DrawList>>): (r: Step)
    ensures !s.initialized ==> r == Step(s, [])
    ensures s.initialized ==> r.next == s.(metrics := r.next.metrics)
    ensures s.initialized ==> r.next.metrics.frameTimeMs * 1000.0 == elapsedUs as real
    ensures s.initialized && drawData.Some? ==>
      && r.next.metrics.drawCalls == |drawData.value|
      && r.next.metrics.vertices == TotalVertices(drawData.value)
      && r.next.metrics.indices == TotalIndices(drawData.value)
    ensures drawData.None? ==>
      && r.next.metrics.drawCalls == s.metrics.drawCalls
      && r.next.metrics.vertices == s.metrics.vertices
      && r.next.metrics.indices == s.metrics.indices
    ensures s.initialized ==> (r.calls == [FrameEndHook] <==> s.config.hooks.frameEnd)
  {
    if !s.initialized then Step(s, [])
    else Step(s.(metrics := EndFrameUpdate(s.metrics, elapsedUs, drawData)),
              HookCall(s.config.hooks.frameEnd, FrameEndHook))
  }

  /** `Render()`: submits the frame, renders extra platform windows when
      multi-viewport is on (restoring the context current before them), and
      presents last. `current` is what `glfwGetCurrentContext` reports and
      `fbWidth`/`fbHeight` what `glfwGetFramebufferSize` reports. */
  function Render(s: RuntimeState, current: Option<WindowId>, fbWidth: int, fbHeight: int): (calls: seq<Call>)
    ensures !s.initialized <==> calls == []
    ensures s.initialized ==> calls[0] == UiRender && calls[|calls| - 1] == SwapBuffers(s.window)
    ensures s.initialized ==> SetViewport(fbWidth, fbHeight) in calls && SubmitDrawData in calls
    ensures s.initialized ==> (RenderPlatformWindows in calls <==> s.config.viewportsEnabled)
    ensures s.initialized && s.config.viewportsEnabled ==>
      calls[|calls| - 2] == MakeContextCurrent(current)
    ensures !s.config.viewportsEnabled ==> forall c :: c in calls ==> !c.MakeContextCurrent?
  {
    if !s.initialized then []
    else
      [UiRender, SetViewport(fbWidth, fbHeight), ClearTarget(0.1, 0.1, 0.1, 1.0), SubmitDrawData]
      + (if s.config.viewportsEnabled
         then [UpdatePlatformWindows, RenderPlatformWindows, MakeContextCurrent(current)]
         else [])
      + [SwapBuffers(s.window)]
  }

  /** `Shutdown()`: tears everything down once and resets the state; the
      configuration and the font slots are left as they were. */
  function Shutdown(s: RuntimeState): (r: Step)
    ensures !s.initialized ==> r == Step(s, [])
    ensures s.initialized ==>
      && r.next.window.None? && !r.next.initialized && !r.next.shouldClose
      && IsZeroed(r.next.metrics)
      && r.next.config == s.config && r.next.fonts == s.fonts
    ensures s.initialized ==>
      DestroyWindow(s.window) in r.calls && r.calls[|r.calls| - 1] == GlfwTerminate
    // the toolkit backends and context are released too, after the hook
    ensures s.initialized ==>
      && RendererBackendShutdown in r.calls && PlatformBackendShutdown in r.calls
      && DestroyUiContext in r.calls
    ensures s.initialized && s.config.hooks.shutdown ==> r.calls[0] == ShutdownHook
    ensures s.initialized ==> (ShutdownHook in r.calls <==> s.config.hooks.shutdown)
    ensures Valid(r.next)
  {
    if !s.initialized then Step(s, [])
    else
      Step(s.(window := None, initialized := false, shouldClose := false, metrics := Reset(s.metrics)),
           HookCall(s.config.hooks.shutdown, ShutdownHook)
           + [RendererBackendShutdown, PlatformBackendShutdown, DestroyUiContext,
              DestroyWindow(s.window), GlfwTerminate])
  }

  /** `ShouldClose()`. */
  function ShouldClose(s: RuntimeState): (b: bool)
    ensures s.shouldClose ==> b
    ensures s.window.None? ==> b == s.shouldClose
    ensures !b <==> !s.shouldClose && (s.window.None? || !s.nativeClose)
  {
    s.shouldClose || (s.window.Some? && s.nativeClose)
  }

  /** `SetShouldClose(flag)`: the runtime flag always, GLFW's flag only when
      there is a window. */
  function SetShouldClose(s: RuntimeState, flag: bool): (r: Step)
    ensures r.next.shouldClose == flag
    ensures s.window.Some? ==> r.next.nativeClose == flag && r.calls == [SetNativeClose(s.window.value, flag)]
    ensures s.window.None? ==> r.next.nativeClose == s.nativeClose && r.calls == []
    ensures ShouldClose(r.next) == flag
    ensures r.next.(shouldClose := s.shouldClose, nativeClose := s.nativeClose) == s
  {
    match s.window
    case None => Step(s.(shouldClose := flag), [])
    case Some(w) => Step(s.(shouldClose := flag, nativeClose := flag), [SetNativeClose(w, flag)])
  }

  /** `window_close_callback`. */
  function OnWindowClose(s: RuntimeState): (r: RuntimeState)
    ensures r.shouldClose && ShouldClose(r)
    ensures r.(shouldClose := s.shouldClose) == s
  {
    s.(shouldClose := true)
  }

  /** A close request from the platform: GLFW raises its own flag, then runs
      the close callback. */
  function NativeCloseRequest(s: RuntimeState): (r: RuntimeState)
    ensures ShouldClose(r)
    ensures r.nativeClose && r.shouldClose
  {
    OnWindowClose(s.(nativeClose := true))
  }

  /** `framebuffer_size_callback`: zero-area or negative sizes (a minimised
      window) leave the stored geometry alone. */
  function OnFramebufferResize(s: RuntimeState, width: int, height: int): (r: RuntimeState)
    ensures width > 0 && height > 0 ==> r.config.width == width && r.config.height == height
    ensures !(width > 0 && height > 0) ==> r == s
    ensures r.config.(width := s.config.width, height := s.config.height) == s.config
    ensures r.(config := s.config) == s
  {
    if width > 0 && height > 0 then s.(config := s.config.(width := width, height := height))
    else s
  }

  /** `SetWindowSize(width, height)`: guarded by the window, not by the
      initialized flag, and with no positivity check. */
  function SetWindowSize(s: RuntimeState, width: int, height: int): (r: Step)
    ensures s.window.None? ==> r == Step(s, [])
    ensures s.window.Some? ==>
      && r.next.config.width == width && r.next.config.height == height
      && r.calls == [SetNativeSize(s.window.value, width, height)]
    ensures r.next.config.(width := s.config.width, height := s.config.height) == s.config
    ensures r.next.(config := s.config) == s
  {
    match s.window
    case None => Step(s, [])
    case Some(w) => Step(s.(config := s.config.(width := width, height := height)), [SetNativeSize(w, width, height)])
  }

  /** `SetWindowTitle(title)`: guarded by the window. */
  function SetWindowTitle(s: RuntimeState, title: string): (r: Step)
    ensures s.window.None? ==> r == Step(s, [])
    ensures s.window.Some? ==> r.next.config.title == title && r.calls == [SetNativeTitle(s.window.value, title)]
    ensures r.next.config.(title := s.config.title) == s.config
    ensures r.next.(config := s.config) == s
  {
    match s.window
    case None => Step(s, [])
    case Some(w) => Step(s.(config := s.config.(title := title)), [SetNativeTitle(w, title)])
  }

  // ---------------------------------------------------------------------------
  // Events dispatched by `glfwPollEvents`
  // ---------------------------------------------------------------------------

  /** A platform event GLFW delivers to the installed callbacks. */
  datatype WindowEvent = Close | Resize(width: int, height: int)

  /** The last resize of `events` that the resize callback accepts. */
  function LastResize(events: seq<WindowEvent>): Option<(int, int)>
    decreases |events|
  {
    if |events| == 0 then None
    else
      var later := LastResize(events[1..]);
      if later.Some? then later
      else match events[0]
        case Resize(w, h) => if w > 0 && h > 0 then Some((w, h)) else None
        case Close => None
  }

  /** The configuration after an accepted resize, if any. */
  function Resized(cfg: WindowConfig, size: Option<(int, int)>): WindowConfig {
    match size
    case None => cfg
    case Some((w, h)) => cfg.(width := w, height := h)
  }

  /** `r` is `s` after `events`: a close request among them raises both close
      flags, the last accepted resize sets the size, and nothing else (the
      metrics aside) differs. */
  predicate EventsApplied(s: RuntimeState, events: seq<WindowEvent>, r: RuntimeState) {
    && r.shouldClose == (s.shouldClose || Close in events)
    && r.nativeClose == (s.nativeClose || Close in events)
    && r.config == Resized(s.config, LastResize(events))
    && r.(shouldClose := s.shouldClose, nativeClose := s.nativeClose, config := s.config, metrics := s.metrics) == s
  }

  /** One event through its callback. */
  function Deliver(s: RuntimeState, e: WindowEvent): RuntimeState {
    match e
    case Close => NativeCloseRequest(s)
    case Resize(w, h) => OnFramebufferResize(s, w, h)
  }

  /** The callbacks `glfwPollEvents` runs, one event at a time in order. */
  function Dispatch(s: RuntimeState, events: seq<WindowEvent>): (r: RuntimeState)
    ensures EventsApplied(s, events, r)
    ensures r.metrics == s.metrics
    decreases |events|
  {
    if |events| == 0 then s
    else
      var first := Deliver(s, events[0]);
      var r := Dispatch(first, events[1..]);
      assert Close in events <==> events[0] == Close || Close in events[1..];
      r
  }
}

=== FILE: runtime_properties.dfy ===
/** Properties of the window runtime that relate several entry points. */
module RuntimeProperties {
  import opened Options
  import opened PerfMetrics
  import opened Fonts
  import opened Runtime

  /** A second `Initialize` without a `Shutdown` in between hands back the
      first call's window and makes no foreign call. */
  lemma InitializeTwice(s: RuntimeState, cfg1: WindowConfig, cfg2: WindowConfig,
                        env1: Backend, env2: Backend, fe1: FontEnv, fe2: FontEnv)
    requires !s.initialized && AllBackendsSucceed(env1)
    ensures Initialize(Initialize(s, cfg1, env1, fe1).next, cfg2, env2, fe2)
         == InitOutcome(Initialize(s, cfg1, env1, fe1).next, Initialize(s, cfg1, env1, fe1).handle, [])
    ensures Initialize(s, cfg1, env1, fe1).handle.Some?
  {
  }

  /** After a successful `Initialize` the window is not reported as closing. */
  lemma FreshWindowDoesNotClose(s: RuntimeState, cfg: WindowConfig, env: Backend, fe: FontEnv)
    requires !s.initialized && AllBackendsSucceed(env)
    ensures !ShouldClose(Initialize(s, cfg, env, fe).next)
  {
  }

  /** A failing toolkit backend leaves the new window in the state of an
      uninitialized runtime, so a later `Shutdown` does not destroy it. */
  lemma BackendFailureLeaks(s: RuntimeState, cfg: WindowConfig, env: Backend, fe: FontEnv)
    requires !s.initialized && env.glfwInitOk && env.createdWindow.Some?
    requires !env.platformInitOk || !env.rendererInitOk
    ensures var r := Initialize(s, cfg, env, fe);
      && r.handle.None? && !r.next.initialized && r.next.window == env.createdWindow
      && Shutdown(r.next) == Step(r.next, [])
  {
  }

  /** The calls of an `Initialize` that fails at a toolkit backend create the
      window and the toolkit context and release neither of them. */
  lemma BackendFailureTrace(s: RuntimeState, cfg: WindowConfig, env: Backend, fe: FontEnv)
    requires !s.initialized && env.glfwInitOk && env.createdWindow.Some?
    requires !env.platformInitOk || !env.rendererInitOk
    ensures LeakTrace(Initialize(s, cfg, env, fe).calls, RequestFor(cfg, env.video))
  {
    FailedInitializeCalls(s, cfg, env, fe);
    FailedCallsLeak(cfg, env.video, env.createdWindow.value, env.platformInitOk);
  }

  /** The calls create the requested window and a toolkit context, and
      release nothing. */
  predicate LeakTrace(calls: seq<Call>, request: WindowRequest) {
    CreateWindow(request) in calls && CreateUiContext in calls && NoTeardown(calls)
  }

  lemma FailedCallsLeak(cfg: WindowConfig, video: VideoMode, w: WindowId, platformOk: bool)
    ensures LeakTrace([InstallErrorCallback, GlfwInit] + CreationCalls(cfg, video) + ContextCalls(cfg, w)
                      + (if platformOk then [RendererBackendInit] else []),
                      RequestFor(cfg, video))
  {
    var made := [InstallErrorCallback, GlfwInit] + CreationCalls(cfg, video);
    var platform := made + ContextCalls(cfg, w);
    NoTeardownAppend([InstallErrorCallback, GlfwInit], CreationCalls(cfg, video));
    NoTeardownAppend(made, ContextCalls(cfg, w));
    NoTeardownAppend(platform, if platformOk then [RendererBackendInit] else []);
  }

  /** The trace of an `Initialize` that fails after creating its window. */
  lemma FailedInitializeCalls(s: RuntimeState, cfg: WindowConfig, env: Backend, fe: FontEnv)
    requires !s.initialized && env.glfwInitOk && env.createdWindow.Some?
    requires !env.platformInitOk || !env.rendererInitOk
    ensures Initialize(s, cfg, env, fe).calls ==
      [InstallErrorCallback, GlfwInit] + CreationCalls(cfg, env.video)
      + ContextCalls(cfg, env.createdWindow.value)
      + (if env.platformInitOk then [RendererBackendInit] else [])
  {
  }

  lemma NoTeardownAppend(a: seq<Call>, b: seq<Call>)
    requires NoTeardown(a) && NoTeardown(b)
    ensures NoTeardown(a + b)
  {

  }

  /** After a successful `Initialize`, `Shutdown` releases what it created:
      the returned window, the toolkit context and GLFW itself. */
  lemma InitializedSessionReleases(s: RuntimeState, cfg: WindowConfig, env: Backend, fe: FontEnv)
    requires !s.initialized && AllBackendsSucceed(env)
    ensures var init := Initialize(s, cfg, env, fe);
      var down := Shutdown(init.next);
      && DestroyWindow(init.handle) in down.calls && DestroyUiContext in down.calls
      && GlfwTerminate in down.calls && down.next.window.None?
  {
  }

  /** `Shutdown` twice in a row: one teardown, then a no-op. */
  lemma ShutdownTwice(s: RuntimeState)
    ensures Shutdown(Shutdown(s).next) == Step(Shutdown(s).next, [])
    ensures s.initialized ==> DestroyWindow(s.window) in Shutdown(s).calls
  {
  }

  /** Before `Initialize` (or after `Shutdown`) every per-frame entry point is
      a no-op. */
  lemma UninitializedIsInert(s: RuntimeState, pending: seq<WindowEvent>, elapsedUs: int,
                             drawData: Option<seq<DrawList>>, current: Option<WindowId>, w: int, h: int)
    requires !s.initialized
    ensures BeginFrame(s, pending) == Step(s, [])
    ensures EndFrame(s, elapsedUs, drawData) == Step(s, [])
    ensures Render(s, current, w, h) == []
    ensures Shutdown(s) == Step(s, [])
  {
  }

  /** The per-frame inputs: the events waiting when `BeginFrame` polls, the
      clock, the draw data `EndFrame` sees, the current context and the
      framebuffer size. */
  datatype FrameInput = FrameInput(
    pending: seq<WindowEvent>,
    elapsedUs: int,
    drawData: Option<seq<DrawList>>,
    current: Option<WindowId>,
    fbWidth: int,
    fbHeight: int)

  /** One iteration of the main loop: `BeginFrame`, panels, `EndFrame`,
      `Render`. The polled events set the close flags and the size, `EndFrame`
      sets the metrics, and nothing else changes; the loop condition is true
      afterwards exactly when it was before or a close request arrived. */
  function RunFrame(s: RuntimeState, f: FrameInput): (r: Step)
    ensures !s.initialized ==> r == Step(s, [])
    ensures s.initialized ==> EventsApplied(s, f.pending, r.next)
    ensures s.initialized ==> r.next.metrics == EndFrameUpdate(s.metrics, f.elapsedUs, f.drawData)
    ensures s.initialized ==> (ShouldClose(r.next) <==> ShouldClose(s) || Close in f.pending)
  {
    var begun := BeginFrame(s, f.pending);
    var ended := EndFrame(begun.next, f.elapsedUs, f.drawData);
    Step(ended.next, begun.calls + ended.calls + Render(ended.next, f.current, f.fbWidth, f.fbHeight))
  }

  function RunFrames(s: RuntimeState, frames: seq<FrameInput>): Step
    decreases |frames|
  {
    if |frames| == 0 then Step(s, [])
    else
      var first := RunFrame(s, frames[0]);
      var rest := RunFrames(first.next, frames[1..]);
      Step(rest.next, first.calls + rest.calls)
  }

  /** Frames run on an uninitialized runtime do nothing at all. */
  lemma {:induction false} RunFramesInert(s: RuntimeState, frames: seq<FrameInput>)
    requires !s.initialized
    ensures RunFrames(s, frames) == Step(s, [])
    decreases |frames|
  {
    if |frames| > 0 {
      RunFramesInert(s, frames[1..]);
    }
  }

  /** Draw data of the last frame in the run that had any. */
  function LastDrawData(frames: seq<FrameInput>): Option<seq<DrawList>>
    decreases |frames|
  {
    if |frames| == 0 then None
    else
      var later := LastDrawData(frames[1..]);
      if later.Some? then later else frames[0].drawData
  }

  /** Every event polled during the run, in order. */
  function Pending(frames: seq<FrameInput>): seq<WindowEvent>
    decreases |frames|
  {
    if |frames| == 0 then [] else frames[0].pending + Pending(frames[1..])
  }

  /** The draw-call, vertex and index counters of a metrics record. */
  function DrawCounters(m: PerformanceMetrics): (nat, nat, nat) {
    (m.drawCalls, m.vertices, m.indices)
  }

  /** The last accepted resize of two runs of events is the second run's,
      unless it has none. */
  lemma {:induction false} LastResizeAppend(a: seq<WindowEvent>, b: seq<WindowEvent>)
    ensures LastResize(a + b) == if LastResize(b).Some? then LastResize(b) else LastResize(a)
    decreases |a|
  {
    if |a| == 0 {
      assert a + b == b;
    } else {
      assert (a + b)[1..] == a[1..] + b;
      LastResizeAppend(a[1..], b);
    }
  }

  /** Two runs of events, one after the other, act as their concatenation. */
  lemma EventsAppliedCompose(s: RuntimeState, a: seq<WindowEvent>, m: RuntimeState,
                             b: seq<WindowEvent>, r: RuntimeState)
    requires EventsApplied(s, a, m) && EventsApplied(m, b, r)
    ensures EventsApplied(s, a + b, r)
  {
    LastResizeAppend(a, b);
  }

  /** Running frames changes only the close flags and the size, as the polled
      events dictate, and the metrics. The loop condition ends true exactly
      when it started true or some frame polled a close request. The draw
      statistics are those of the last frame that had draw data, never a
      total over frames; with no draw data in the run they are left as they
      were. */
  lemma {:induction false} RunFramesKeepsSession(s: RuntimeState, frames: seq<FrameInput>)
    requires s.initialized
    ensures EventsApplied(s, Pending(frames), RunFrames(s, frames).next)
    ensures ShouldClose(RunFrames(s, frames).next) <==> ShouldClose(s) || Close in Pending(frames)
    ensures DrawCounters(RunFrames(s, frames).next.metrics) ==
      match LastDrawData(frames)
      case Some(lists) => (|lists|, TotalVertices(lists), TotalIndices(lists))
      case None => DrawCounters(s.metrics)
    decreases |frames|
  {
    if |frames| > 0 {
      var f, rest := frames[0], frames[1..];
      var first := RunFrame(s, f).next;
      assert first.initialized;
      assert RunFrames(s, frames).next == RunFrames(first, rest).next;
      RunFramesKeepsSession(first, rest);
      EventsAppliedCompose(s, f.pending, first, Pending(rest), RunFrames(first, rest).next);
      if LastDrawData(rest).None? {
        assert LastDrawData(frames) == f.drawData;
        assert DrawCounters(RunFrames(s, frames).next.metrics) == DrawCounters(first.metrics);
      }
    }
  }

  /** A full session from process start: initialize an 800x600 window with
      docking, run three frames, shut down. The runtime ends uninitialized,
      windowless and with zeroed metrics, holding the configuration as the
      last accepted resize of the three frames left it. */
  lemma SessionScenario(env: Backend, fe: FontEnv, f1: FrameInput, f2: FrameInput, f3: FrameInput)
    requires AllBackendsSucceed(env)
    ensures var cfg := DefaultConfig.(title := "T", width := 800, height := 600, dockingEnabled := true);
      var init := Initialize(Startup, cfg, env, fe);
      var run := RunFrames(init.next, [f1, f2, f3]);
      var done := Shutdown(run.next);
      && init.handle.Some?
      && run.next.initialized
      && !done.next.initialized && done.next.window.None? && IsZeroed(done.next.metrics)
      && done.next.config == Resized(cfg, LastResize(Pending([f1, f2, f3])))
  {
    var cfg := DefaultConfig.(title := "T", width := 800, height := 600, dockingEnabled := true);
    var init := Initialize(Startup, cfg, env, fe);
    RunFramesKeepsSession(init.next, [f1, f2, f3]);
  }

  /** Every entry point keeps "initialized implies a window". */
  lemma TransitionsKeepValid(s: RuntimeState, cfg: WindowConfig, env: Backend, fe: FontEnv,
                             flag: bool, w: int, h: int, title: string, frames: seq<FrameInput>)
    requires Valid(s)
    ensures Valid(Initialize(s, cfg, env, fe).next)
    ensures Valid(RunFrames(s, frames).next)
    ensures Valid(Shutdown(s).next)
    ensures Valid(SetShouldClose(s, flag).next)
    ensures Valid(OnWindowClose(s)) && Valid(NativeCloseRequest(s))
    ensures Valid(OnFramebufferResize(s, w, h))
    ensures Valid(SetWindowSize(s, w, h).next) && Valid(SetWindowTitle(s, title).next)
  {
    if s.initialized {
      RunFramesKeepsSession(s, frames);
    } else {
      RunFramesInert(s, frames);
    }
  }
}
